=== FILE: README.md ===
# Kardia dual node: PoW target, execution tracer and Ethereum relay in Dafny

This project models three independent pieces of the go-kardia node and proves
properties of them.

- **Peer key and proof-of-work target** (`lib/p2p/key.go`, module `PowKey` in
  `pow_key.dfy`). `MakePoWTarget(difficulty, targetBits)` builds the
  big-endian byte string of `2^(targetBits - difficulty) - 1`. Its two panics
  become `Failure` values. A peer ID is the lower-case hex spelling of the
  node's serialised public key. The key bytes themselves are abstract. The
  comments at `lib/p2p/key.go:15`, `28` and `39` describe the ID as a
  hex-encoded address or a hash of the key, but `lib/p2p/key.go:41` encodes
  the whole serialised key; the model follows the code.
- **Structured VM tracer** (`kvm/loggers.go`, module `StructLogging` in
  `struct_logger.dfy`). A `StructLogger` is an immutable record: config,
  per-contract recorded slots, captured entries, output and error.
  `CaptureState`, `CaptureEnd` and `Reset` are pure step functions. The VM
  frame is plain data: the stack is a sequence of 256-bit words with the top
  last, memory is bytes, and the state database is a lookup function. Go
  maps are shared references, but Dafny maps are values. So the snapshot the
  source takes with `Storage.Copy` is the map value itself. `CopyStorage`
  proves that the source's copy loop yields exactly that map.
- **Ethereum-side relay of the dual node** (`dual/eth.go`, module `EthRelay`
  in `eth_relay.dfy`). It covers:
  - the head listener and the handler loop, as a state machine over the
    one-slot `blockCh`;
  - `handleBlock`, `ExtractEthTxSummary`, `CreateEthTxFromDualEvent` and
    `SubmitTx`;
  - the development block generator;
  - the database/trie cache split.

  Chain state reads, nonces, the contract's method table, the Kardia match
  transaction's hash, the release-transaction builder, the event pool's
  `AddEvent` and the Ethereum transaction pool are parameters. The event
  pool's state is a type parameter.

`common.dfy` (module `Common`) holds the shared pieces:
- bytes;
- 32-byte hashes and 20-byte addresses, as bounded naturals;
- `Option` for Go's nil and `Result` for Go's error returns;
- powers of two.

How `handleBlock` ends matters to the model:
- A call-data decode failure panics (`dual/eth.go:371-376`). So does a nil
  Kardia match transaction, whose `Hash()` is called at `dual/eth.go:392`.
- A failed state read or an `AddEvent` error makes it return, so the block's
  later transactions are never looked at (`dual/eth.go:363-366`, `381-385`,
  `397-400`).
- The match transaction is composed per event with ratio 1
  (`dual/eth.go:390`).

## Model

| member | source | states |
|---|---|---|
| PowKey.MakePoWTarget | lib/p2p/key.go:102-119 | Fails exactly when targetBits is not a multiple of 8 (checked first) or difficulty is not below targetBits. Otherwise the result is targetBits/8 bytes long. Its first difficulty/8 bytes are 0x00. When difficulty%8 > 0 the next byte is 2^(8 - difficulty%8) - 1. Every byte after that prefix is 0xFF. |
| PowKey.MakePoWTargetValue | lib/p2p/key.go:99-102 | Read as a big-endian number, the target equals 2^(targetBits - difficulty) - 1. |
| PowKey.MeetsTargetIffLeadingZeros | lib/p2p/key.go:99-102 | A value of targetBits bits is at most the target exactly when it is below 2^(targetBits - difficulty), that is, exactly when its first difficulty bits are 0. |
| PowKey.MakePoWTargetHalves | lib/p2p/key.go:99-102 | Adding one bit of difficulty halves the number of values at or below the target. |
| PowKey.HexEncode | lib/p2p/key.go:40-42 | The hex encoding has twice as many characters as there are bytes. Characters 2i and 2i+1 are the high and low nibble of byte i, from the alphabet 0-9a-f. |
| PowKey.HexRoundTrip | lib/p2p/key.go:40-42 | Decoding the hex encoding gives back exactly the bytes. |
| PowKey.PubKeyToID | lib/p2p/key.go:38-42 | The ID is twice as long as the key and uses only lower-case hex digits. It decodes back to the key. |
| PowKey.NodeID | lib/p2p/key.go:28-31 | A node's ID is its public key's ID and decodes back to that key. |
| PowKey.PubKeyToIDInjective | lib/p2p/key.go:38-42 | Two keys have the same ID if and only if they are the same key. |
| StructLogging.CopyStorage | kvm/loggers.go:36-43 | The copy has exactly the keys of the source, each with the same value. |
| StructLogging.NewStructLogger | kvm/loggers.go:125-134 | A nil config gives the zero config: limit 0 and every capture enabled. Otherwise the given config is used. Slots and logs start empty, output and error nil. |
| StructLogging.CaptureState | kvm/loggers.go:141-202 | At the limit (limit nonzero and at most the entry count) nothing changes. Otherwise one entry is appended with the step's pc, op, gas, cost, depth, error and refund, and earlier entries are kept. Each Disable flag leaves its field nil. The return stack is always nil. Storage capture off leaves the slots alone. SLOAD records the state value under the top word. SSTORE records the second word under the top word. The entry's storage is the running contract's updated slots. Other contracts' slots never change. |
| StructLogging.CaptureEnd | kvm/loggers.go:209-228 | Output() and Error() then return the recorded output and error. Logs, slots and config are unchanged. |
| StructLogging.TraceKeepsErrAndOutput | kvm/loggers.go:141-228 | No sequence of steps changes what Error() and Output() return. |
| StructLogging.EndOfRunReadback | kvm/loggers.go:125-228 | On a new logger, Error() and Output() are nil throughout the execution. After it, StructLogs() has exactly the number of entries the limit allows, and Output() and Error() return what CaptureEnd recorded. |
| StructLogging.Reset | kvm/loggers.go:283-289 | Logs and slots become empty, output becomes empty (not nil), error becomes nil, and the config stays. This equals a freshly made logger with the same config, except for the empty output. |
| StructLogging.TraceLogCount | kvm/loggers.go:144-202 | After any sequence of steps the number of entries is exact. Unlimited: one per step. At or past the limit (including negative limits): unchanged. Otherwise: grows up to the limit. |
| StructLogging.TraceRespectsLimit | kvm/loggers.go:145-148 | With a positive limit not yet exceeded, no sequence of steps exceeds it. |
| StructLogging.TraceKeepsEarlierEntries | kvm/loggers.go:200-201 | Entries already captured are never altered or removed by later steps. |
| StructLogging.TraceWithoutStorageKeepsSlots | kvm/loggers.go:168-193 | With storage capture off, no sequence of steps changes the recorded slots. |
| StructLogging.DefaultLoggerRecordsEverything | kvm/loggers.go:125-202 | A logger with the zero config records one entry per step, in step order. Each entry has memory, stack, storage and return data captured. |
| EthRelay.InputMethodName | dual/ethsmc/eth_smc.go:217-223 | Call data shorter than 4 bytes is the slice panic. Otherwise it succeeds exactly when the 4-byte selector is in the method table, and returns that method's name. An unknown selector returns an error naming the selector. |
| EthRelay.ExtractEthTxSummary | dual/eth.go:406-418 | On success the method is the decoded name and the value is the transaction's value. On a decoder error that error is returned. |
| EthRelay.ExtractEthTxSummaryOfCall | dual/eth.go:406-418 | For call data made of a 4-byte selector followed by any arguments, the summary names the selector's method and carries the transaction's value. An unknown selector is reported as itself. |
| EthRelay.MonitoredTxs | dual/eth.go:357-361 | The filter keeps exactly the transactions whose non-nil destination is the contract. Contract creations never match. |
| EthRelay.MonitoredTxsAppend | dual/eth.go:357-361 | Filtering a block split in two is filtering each part and joining the results. A single transaction is kept exactly when it goes to the contract. Together these fix the order and multiplicity of the kept transactions. |
| EthRelay.Translate | dual/eth.go:362-394 | Fails at the first failing step, in the source's order: Ethereum state, then decode, then Kardia state, then a nil match transaction. The built event comes from the external chain and is tagged "ETH". It carries the transaction's hash, the dual-state account's nonce, the decoded summary with the transaction's value, and a pending "KARDIA" transaction whose hash is that of the match transaction composed with ratio 1. |
| EthRelay.HandleTxs | dual/eth.go:357-403 | In one handleBlock call, at most one event is added per transaction. When handling stops early, it stops at a transaction sent to the contract. |
| EthRelay.HandleBlock | dual/eth.go:333-341 | A nil block leaves the pool unchanged, adds no event and completes. |
| EthRelay.HandleTxsFollowsFilter | dual/eth.go:357-403 | The added events are the translations of the first monitored transactions, in block order. Handling completes exactly when every monitored transaction was added. Otherwise the first one not added is where it returned (state read or AddEvent failure) or panicked (decode failure or nil match transaction), so no later one is processed. Within this one handling, the pool is exactly the result of adding the added events in order. |
| EthRelay.AddedEventsAreWellFormed | dual/eth.go:377-394 | Every added event has externalChain set, source "ETH" and a pending "KARDIA" transaction. |
| EthRelay.ScanKeepsBlockOrder | dual/eth.go:359-361 | Take a block [A, B, C] where only A and C go to the contract. If both translate and the pool takes both events, the events for A then C are added and handling completes. |
| EthRelay.Forward | dual/eth.go:305-311 | A head goes into blockCh only when the slot is free. Otherwise it is dropped and the queued block is kept. |
| EthRelay.Step | dual/eth.go:300-330 | Head and subscription-error events never block. A subscription error ends the listener. A receive happens only from a non-empty channel, and hands the block to handleBlock exactly when the node is not light. The generator's send blocks while the slot is full. |
| EthRelay.RunKeepsOneSlot | dual/eth.go:296-316 | blockCh never holds more than one block, whatever the interleaving. |
| EthRelay.LightNodeNeverDispatches | dual/eth.go:323-330 | A light node never hands a block to handleBlock. |
| EthRelay.ListenerStopIsFinal | dual/eth.go:312-313 | After a subscription error the listener never runs again, and head events no longer change the state. |
| EthRelay.SecondHeadIsDropped | dual/eth.go:305-311 | Two heads arrive before the handler receives: the channel holds the first and the second is dropped. |
| EthRelay.CreateEthTxFromDualEvent | dual/eth.go:420-434 | With no Ethereum state there is no transaction and nothing is reported. Otherwise the result is whatever CreateEthReleaseTx builds for the event's value at the signer's nonce, nil included. A zero nonce is reported, but the builder is still asked, with nonce 0. |
| EthRelay.SubmitTx | dual/eth.go:221-235 | Returns ErrCreateTx exactly when the state read fails or the builder returns nil. Returns ErrAddEthTx exactly when the pool refuses the built release. Otherwise no error. |
| EthRelay.ReleaseMatchesLockedValue | dual/eth.go:371-377 | For an event handleBlock built from a transaction to the contract, the release asks the builder for exactly that transaction's value. |
| EthRelay.ZeroNonceStillSubmits | dual/eth.go:428-433 | A zero signer nonce is reported. When the builder and the pool both accept, SubmitTx still succeeds. |
| EthRelay.PassAsWritten | dual/eth.go:463-469 | As written, the i-th iteration of a pass sleeps i ms (the range index) and sends the i-th generated block. |
| EthRelay.Pass | dual/eth.go:463-469 | As intended, the i-th iteration sleeps the i-th interval and sends the i-th generated block. |
| EthRelay.GenerateLength | dual/eth.go:460-475 | Under either reading, each pass emits one block per interval. Without RepeatInfinitely the generator stops after one pass. With it, every observed pass emits. |
| EthRelay.GenerateFirstPass | dual/eth.go:463-469 | The first pass sleeps the index as written, and the configured intervals as intended. |
| EthRelay.GenerateSchedule | dual/eth.go:462-474 | Under either reading, each action after the first pass sleeps as long as the action a full pass earlier. |
| EthRelay.GenerateBlocks | dual/eth.go:466-468 | Under either reading, the k-th action sends the k-th generated block. |
| EthRelay.MockBlockGeneration | dual/eth.go:460-475 | The routine as written: one pass unless RepeatInfinitely. The first pass sleeps 0, 1, 2, ... ms whatever the intervals, and each later pass repeats the first. The k-th action sends the k-th generated block. |
| EthRelay.MockBlockGenerationIntended | dual/eth.go:460-475 | The routine as intended: the same structure and blocks, with the first pass sleeping the configured intervals in order. |
| EthRelay.MockGenerationIgnoresIntervals | dual/eth.go:463-464 | With intervals [10, 20], the routine as written sleeps 0 ms then 1 ms, and the intended routine sleeps 10 ms then 20 ms. |
| EthRelay.CacheSplit | dual/eth.go:180-182 | The shares use 64-bit Go arithmetic with wrap-around and truncating division. For a non-negative size the two shares never exceed the size. Without overflow they are the floors of 75% and 25% and add up to the size or one less. Without overflow, for a negative size both round toward zero, so their sum lies between the size and 0. |
| EthRelay.DefaultCacheSplit | dual/eth.go:74 | The default 1024 MB splits into 768 MB of database cache and 256 MB of trie cache. |

## Left out

- `LoadOrGenNodeKey`, `LoadNodeKey` and `SaveAs`: file I/O, JSON and key generation.
- Private keys: the model keeps only the public key bytes that `crypto.FromECDSAPub` produces, as an abstract byte string.
- PowKey.MakePoWTarget: the arguments are unbounded naturals. Go's 64-bit `uint`, and `int(difficulty)` turning negative above 2^63, are not modelled. Such targets would need about 2^60 bytes of memory.
- `WriteTrace`, `WriteLogs` and the whole markdown logger: formatted text output to a writer.
- The `Tracer` interface plumbing, and `CaptureStart` and `CaptureFault`, whose bodies are empty.
- The `Debug` printing in `CaptureEnd`: console output only.
- StructLogging.CaptureState:
  - The `uint256` to `big.Int` stack conversion is the identity on 256-bit naturals.
  - pc, gas and cost are naturals, since they are only copied.
  - The opcode table is not part of this model. SLOAD and SSTORE carry their EVM values 0x54 and 0x55.
- `NewEthKardia` node, P2P and bootnode wiring and the ethstats registration. Only its cache split is modelled.
- `defaultEthDataDir` and `homeDir`: environment and OS lookups.
- `Start`, `Stop`, `EthNode`, `Client`, `EthBlockChain` and `EthTxPool`: runtime service lookup. This includes `syncHead` returning at once when no full Ethereum service is registered.
- Goroutine scheduling and `time.Sleep`. The generator's sleeps are recorded
  as durations. Only the listener, the handler loop and the generator are
  interleaved, as `SyncEvent`s; the handling of a block is not one of them.
- EthRelay.HandleTxs: one `handleBlock` call on its own. The source starts each
  handling in its own goroutine (`dual/eth.go:327`), so handlings of different
  blocks run at once and share the event pool and the chain state reads; that
  interleaving is not modelled. A refused `AddEvent` is assumed to leave the
  pool unchanged. A `Panicked` outcome is an ordinary result here, but the
  source has no `recover`, so in the program it ends the whole process.
- The head channel `chainHeadEventCh` and the chain feed behind it. `syncHead` creates this channel with 5 slots (`headChannelSize`, `dual/eth.go:56`, `292`) and subscribes it to go-ethereum's chain feed. The model delivers head events straight to the listener. So the buffer's delay and the feed's behaviour while it is full are not modelled.
- The generator starting only when a dev configuration is present: generator sends are events like any other.
- `CreateKardiaMatchAmountTx`, `CreateEthReleaseTx`, signing and transaction hashing. They are not part of this model. They become partial parameters: the match transaction's hash, or None for a nil transaction, and a release builder that may return nil.
- `SendEthFromContract`: a deprecated duplicate of the release path.
- The event pool: its deduplication and hashing are not part of this model. `AddEvent` is a parameter.
- The Ethereum transaction pool's own state: `AddLocal` is an acceptance predicate.
- `HexToAddress` on the configured contract string: the model takes the address directly.
- StructLogging.Reset: `l.logs[:0]` keeps the old backing array, and `StructLogs` hands that array out without copying it. A slice a caller obtained before the reset is therefore overwritten by later captures. The model's entries are values, so this aliasing is not modelled.
- EthRelay.ExtractEthTxSummary: on error the source also returns an empty summary beside the error; the model returns only the error.
- The ABI library behind `MethodById`: the method table is an uninterpreted partial function of the 4-byte selector.
- The release direction's nonce increase across submissions: nothing in the code enforces it.

## Findings

| source | as written | input that shows it | evidently intended | confidence | as-written member | corrected member |
|---|---|---|---|---|---|---|
| dual/eth.go:463-464 | `for timeout := range triggeringConfig.TimeIntervals` binds the slice index, so iteration i sleeps i ms | TimeIntervals = [10, 20]: sleeps of 0 ms and 1 ms instead of 10 ms and 20 ms (`MockGenerationIgnoresIntervals`) | `for _, timeout := range ...`: iteration i sleeps TimeIntervals[i] ms | not executed; medium, since the `TriggeringConfig` type is not part of this model and the reading assumes `TimeIntervals` is a slice | EthRelay.MockBlockGeneration | EthRelay.MockBlockGenerationIntended |

=== FILE: common.dfy ===
/** Types shared by the node-key, tracer and relay models: bytes, fixed-width
    hashes and addresses read as natural numbers, and the nil-or-value /
    value-or-error wrappers that stand for Go's nil pointers and error returns. */
module Common {

  /** A Go `byte`. */
  type Byte = b: int | 0 <= b < 256

  /** 2^256: one more than the largest 256-bit word. */
  const WordLimit: nat := 0x1_0000_0000_0000_0000_0000_0000_0000_0000_0000_0000_0000_0000_0000_0000

  /** 2^160: one more than the largest 20-byte address. */
  const AddressLimit: nat := 0x1_0000_0000_0000_0000_0000_0000_0000_0000_0000

  /** A 32-byte hash, or a 256-bit VM word, read as a big-endian number. */
  type Hash = h: nat | h < WordLimit

  /** A 20-byte account address, read as a big-endian number. */
  type Address = a: nat | a < AddressLimit

  /** A Go pointer or slice that may be nil. */
  datatype Option<+T> = None | Some(value: T)

  /** A Go `(value, error)` pair where exactly one side is meaningful. */
  datatype Result<+T, +E> = Success(value: T) | Failure(error: E)

  /** 2^n. */
  function Pow2(n: nat): (p: nat)
    ensures p >= 1
  {
    if n == 0 then 1 else 2 * Pow2(n - 1)
  }

  lemma {:induction false} Pow2Add(a: nat, b: nat)
    ensures Pow2(a + b) == Pow2(a) * Pow2(b)
  {
    if a != 0 {
      Pow2Add(a - 1, b);
      assert Pow2(a + b) == 2 * Pow2(a - 1 + b);
      assert 2 * (Pow2(a - 1) * Pow2(b)) == (2 * Pow2(a - 1)) * Pow2(b);
    }
  }

  lemma {:induction false} Pow2Le(a: nat, b: nat)
    requires a <= b
    ensures Pow2(a) <= Pow2(b)
  {
    if a < b {
      Pow2Le(a, b - 1);
    }
  }
}

=== FILE: eth_relay.dfy ===
/** The Ethereum side of the dual node (dual/eth.go): the head listener and
    handler loop, block scanning for transactions sent to the bridge contract,
    translation of those transactions into dual events, release-transaction
    submission, the development block generator, and the cache split of the
    embedded Ethereum node.

    Everything the relay asks of other components is a parameter: chain state
    snapshots and nonces, the contract's method table, the Kardia match
    transaction's hash, the release-transaction builder, the event pool's add
    operation and the Ethereum transaction pool's acceptance. The listener,
    the handler loop and the generator become steps of a state machine over
    the one-slot block channel; each block's handling is one call on its own. */
module EthRelay {
  import opened Common

  // ---------------------------------------------------------------------------
  // Data

  /** An Ethereum transaction as the relay sees it; `to` is nil for contract
      creation, and `hash` is the transaction's hash. */
  datatype EthTx = EthTx(to: Option<Address>, value: nat, data: seq<Byte>, hash: Hash)

  /** An Ethereum block, reduced to its transactions in block order. */
  datatype Block = Block(txs: seq<EthTx>)

  /** `types.EventSummary`: the decoded method and the value sent. */
  datatype EventSummary = EventSummary(txMethod: string, txValue: nat)

  /** `types.TxData`: the counterpart transaction a dual event expects. */
  datatype TxData = TxData(txHash: Hash, target: string)

  /** A dual event as `types.NewDualEvent` builds it, with the pending
      counterpart transaction attached afterwards. */
  datatype DualEvent = DualEvent(
    nonce: nat,
    externalChain: bool,
    txSource: string,
    triggeredTxHash: Hash,
    summary: EventSummary,
    pendingTx: Option<TxData>)

  /** An identifier of one chain state snapshot. */
  type StateRoot = nat

  /** The bridge contract's method table: the method name for a 4-byte
      selector, if the selector is known. */
  type MethodTable = seq<Byte> -> Option<string>

  /** Why an AddEvent call was refused. */
  datatype PoolError = PoolError(message: string)

  /** The ratio `handleBlock` passes when composing the Kardia match transaction. */
  const MatchRatio: nat := 1

  const EthSourceTag: string := "ETH"
  const KardiaTargetTag: string := "KARDIA"

  /** The relay's configuration and collaborators. `P` is the event pool's state.
      - contract: the watched contract address (`HexToAddress(ContractAddress)`)
      - ethStateFor / kardiaStateFor: the outcome of reading the Ethereum and
        Kardia chain states while handling a transaction; None is a read error
      - nonceAt: an account's nonce in a snapshot
      - matchTxHash: the hash of the Kardia match transaction
        `CreateKardiaMatchAmountTx` composes from a Kardia snapshot, a value and
        a match ratio; None is a nil transaction
      - addEvent: the event pool's AddEvent */
  datatype Relay<!P> = Relay(
    contract: Address,
    lightNode: bool,
    dualStateAddress: Address,
    methods: MethodTable,
    ethStateFor: EthTx -> Option<StateRoot>,
    kardiaStateFor: EthTx -> Option<StateRoot>,
    nonceAt: (StateRoot, Address) -> nat,
    matchTxHash: (StateRoot, nat, nat) -> Option<Hash>,
    addEvent: (P, DualEvent) -> Result<P, PoolError>)

  // ---------------------------------------------------------------------------
  // Decoding (ExtractEthTxSummary and the method lookup it uses)

  /** Why call data could not be decoded. `ShortCallData` is the
      out-of-range slice `input[0:4]`, a run-time panic in the source rather
      than an error value. */
  datatype DecodeError = ShortCallData | UnknownSelector(selector: seq<Byte>)

  /** `InputMethodName`: the method named by the first four bytes of the call data. */
  function InputMethodName(methods: MethodTable, input: seq<Byte>): (r: Result<string, DecodeError>)
    ensures |input| < 4 <==> r == Failure(ShortCallData)
    ensures |input| >= 4 ==>
              (r.Success? <==> methods(input[..4]).Some?)
              && (r.Success? ==> r.value == methods(input[..4]).value)
              && (r.Failure? ==> r.error == UnknownSelector(input[..4]))
  {
    if |input| < 4 then Failure(ShortCallData)
    else match methods(input[..4])
      case Some(name) => Success(name)
      case None => Failure(UnknownSelector(input[..4]))
  }

  /** `ExtractEthTxSummary`: the decoded method name and the transaction's
      value, or the decoder's error. */
  function ExtractEthTxSummary(methods: MethodTable, tx: EthTx): (r: Result<EventSummary, DecodeError>)
    ensures r.Success? <==> InputMethodName(methods, tx.data).Success?
    ensures r.Success? ==>
              r.value.txMethod == InputMethodName(methods, tx.data).value && r.value.txValue == tx.value
    ensures r.Failure? ==> r.error == InputMethodName(methods, tx.data).error
  {
    match InputMethodName(methods, tx.data)
    case Success(name) => Success(EventSummary(name, tx.value))
    case Failure(e) => Failure(e)
  }

  /** Call data is a 4-byte selector followed by the ABI-encoded arguments:
      the summary of a call names the selector's method and carries the
      transaction's value, whatever the arguments; an unknown selector is
      reported as itself. */
  lemma ExtractEthTxSummaryOfCall(methods: MethodTable, tx: EthTx, selector: seq<Byte>, args: seq<Byte>)
    requires |selector| == 4 && tx.data == selector + args
    ensures methods(selector).Some? ==>
              ExtractEthTxSummary(methods, tx) == Success(EventSummary(methods(selector).value, tx.value))
    ensures methods(selector).None? ==> ExtractEthTxSummary(methods, tx) == Failure(UnknownSelector(selector))
  {
  }

  // ---------------------------------------------------------------------------
  // Block scanning (handleBlock)

  /** The matcher of handleBlock: a non-nil destination equal to the contract. */
  predicate IsMonitored(tx: EthTx, contract: Address)
  {
    tx.to.Some? && tx.to.value == contract
  }

  /** Reference filter: the monitored transactions of a block, in block order. */
  function MonitoredTxs(txs: seq<EthTx>, contract: Address): (m: seq<EthTx>)
    ensures |m| <= |txs|
    ensures forall t :: t in m ==> t in txs && t.to == Some(contract)
    ensures forall t :: t in txs && IsMonitored(t, contract) ==> t in m
  {
    if |txs| == 0 then []
    else if IsMonitored(txs[0], contract) then [txs[0]] + MonitoredTxs(txs[1..], contract)
    else MonitoredTxs(txs[1..], contract)
  }

  /** The filter works transaction by transaction: filtering a block split
      in two is filtering each part and joining the results, and a single
      transaction is kept exactly when it goes to the contract. Together
      these fix the order and multiplicity of the result. */
  lemma {:induction false} MonitoredTxsAppend(a: seq<EthTx>, b: seq<EthTx>, contract: Address)
    ensures MonitoredTxs(a + b, contract) == MonitoredTxs(a, contract) + MonitoredTxs(b, contract)
    ensures MonitoredTxs([], contract) == []
    ensures forall t :: MonitoredTxs([t], contract) == if IsMonitored(t, contract) then [t] else []
    decreases |a|
  {
    if |a| == 0 {
      assert a + b == b;
    } else {
      assert (a + b)[0] == a[0];
      assert (a + b)[1..] == a[1..] + b;
      MonitoredTxsAppend(a[1..], b, contract);
    }
    forall t
      ensures MonitoredTxs([t], contract) == if IsMonitored(t, contract) then [t] else []
    {
      assert [t][1..] == [];
    }
  }

  /** Why handling a monitored transaction stopped. */
  datatype TxFailure =
    | EthStateUnavailable
    | DecodeFailed(decodeError: DecodeError)
    | KardiaStateUnavailable
    | MatchTxNil
    | PoolRejected(poolError: PoolError)

  /** The failures that end handleBlock with a panic rather than a return:
      the explicit panic on undecodable call data and the nil dereference
      `kardiaTx.Hash()` of a nil match transaction. */
  predicate Panics(f: TxFailure)
  {
    f.DecodeFailed? || f.MatchTxNil?
  }

  /** The dual event handleBlock builds for one monitored transaction, or the
      first step that failed, in the source's order: Ethereum state read,
      summary extraction, Kardia state read, match transaction. */
  function Translate<P>(r: Relay<P>, tx: EthTx): (res: Result<DualEvent, TxFailure>)
    ensures r.ethStateFor(tx).None? ==> res == Failure(EthStateUnavailable)
    ensures r.ethStateFor(tx).Some? && ExtractEthTxSummary(r.methods, tx).Failure? ==>
              res == Failure(DecodeFailed(ExtractEthTxSummary(r.methods, tx).error))
    ensures r.ethStateFor(tx).Some? && ExtractEthTxSummary(r.methods, tx).Success? && r.kardiaStateFor(tx).None? ==>
              res == Failure(KardiaStateUnavailable)
    ensures r.ethStateFor(tx).Some? && ExtractEthTxSummary(r.methods, tx).Success? && r.kardiaStateFor(tx).Some?
            && r.matchTxHash(r.kardiaStateFor(tx).value, tx.value, MatchRatio).None? ==>
              res == Failure(MatchTxNil)
    ensures res.Success? <==>
              && r.ethStateFor(tx).Some? && ExtractEthTxSummary(r.methods, tx).Success? && r.kardiaStateFor(tx).Some?
              && r.matchTxHash(r.kardiaStateFor(tx).value, tx.value, MatchRatio).Some?
    ensures res.Success? ==>
              var ev := res.value;
              && ev.externalChain
              && ev.txSource == EthSourceTag
              && ev.triggeredTxHash == tx.hash
              && ev.nonce == r.nonceAt(r.ethStateFor(tx).value, r.dualStateAddress)
              && ev.summary == ExtractEthTxSummary(r.methods, tx).value
              && ev.summary.txValue == tx.value
              && ev.pendingTx == Some(TxData(r.matchTxHash(r.kardiaStateFor(tx).value, tx.value, MatchRatio).value,
                                             KardiaTargetTag))
  {
    match r.ethStateFor(tx)
    case None => Failure(EthStateUnavailable)
    case Some(ethState) =>
      var nonce := r.nonceAt(ethState, r.dualStateAddress);
      match ExtractEthTxSummary(r.methods, tx)
      case Failure(e) => Failure(DecodeFailed(e))
      case Success(summary) =>
        var event := DualEvent(nonce, true, EthSourceTag, tx.hash, summary, None);
        match r.kardiaStateFor(tx)
        case None => Failure(KardiaStateUnavailable)
        case Some(kardiaState) =>
          match r.matchTxHash(kardiaState, summary.txValue, MatchRatio)
          case None => Failure(MatchTxNil)
          case Some(kardiaTxHash) => Success(event.(pendingTx := Some(TxData(kardiaTxHash, KardiaTargetTag))))
  }

  /** How handleBlock ended: it ran through the block, returned early at a
      transaction, or panicked at a transaction. */
  datatype Status =
    | Completed
    | Returned(at: Hash, why: TxFailure)
    | Panicked(at: Hash, why: TxFailure)

  /** The event pool after handling, the events added in order, and how it ended. */
  datatype BlockOutcome<P> = BlockOutcome(pool: P, added: seq<DualEvent>, status: Status)

  /** The loop of handleBlock over a block's transactions. It adds at most
      one event per transaction, and when it stops early it stops at a
      transaction sent to the contract. */
  function HandleTxs<P>(r: Relay<P>, pool: P, txs: seq<EthTx>): (out: BlockOutcome<P>)
    ensures |out.added| <= |txs|
    ensures !out.status.Completed? ==> exists t :: t in txs && IsMonitored(t, r.contract) && t.hash == out.status.at
    decreases |txs|
  {
    if |txs| == 0 then BlockOutcome(pool, [], Completed)
    else
      var tx := txs[0];
      if !IsMonitored(tx, r.contract) then HandleTxs(r, pool, txs[1..])
      else match Translate(r, tx)
        case Failure(f) => BlockOutcome(pool, [], if Panics(f) then Panicked(tx.hash, f) else Returned(tx.hash, f))
        case Success(event) =>
          match r.addEvent(pool, event)
          case Failure(e) => BlockOutcome(pool, [], Returned(tx.hash, PoolRejected(e)))
          case Success(pool') =>
            var rest := HandleTxs(r, pool', txs[1..]);
            BlockOutcome(rest.pool, [event] + rest.added, rest.status)
  }

  /** `handleBlock`: a nil block is a no-op; otherwise scan its transactions. */
  function HandleBlock<P>(r: Relay<P>, pool: P, block: Option<Block>): (out: BlockOutcome<P>)
    ensures block.None? ==> out.pool == pool && out.added == [] && out.status == Completed
  {
    match block
    case None => BlockOutcome(pool, [], Completed)
    case Some(b) => HandleTxs(r, pool, b.txs)
  }

  /** The event pool after adding `events` one by one, or the first refusal. */
  function AddAll<P>(add: (P, DualEvent) -> Result<P, PoolError>, pool: P, events: seq<DualEvent>): Result<P, PoolError>
    decreases |events|
  {
    if |events| == 0 then Success(pool)
    else match add(pool, events[0])
      case Failure(e) => Failure(e)
      case Success(pool') => AddAll(add, pool', events[1..])
  }

  /** What ended a handling that did not complete, read off the first monitored
      transaction that was not added. */
  ghost predicate StoppedAt<P>(r: Relay<P>, pool: P, t: EthTx, status: Status)
  {
    match Translate(r, t)
    case Failure(f) => status == if Panics(f) then Panicked(t.hash, f) else Returned(t.hash, f)
    case Success(ev) => r.addEvent(pool, ev).Failure? && status == Returned(t.hash, PoolRejected(r.addEvent(pool, ev).error))
  }

  /** handleBlock against the reference filter: the added events are the
      translations of the first monitored transactions, in block order; it
      completes exactly when every monitored transaction was added; otherwise
      the first monitored transaction not added is the one where it returned or
      panicked, so no later one is processed; and the pool changed only by
      adding the added events in order. */
  lemma {:induction false} HandleTxsFollowsFilter<P>(r: Relay<P>, pool: P, txs: seq<EthTx>)
    ensures var out := HandleTxs(r, pool, txs);
            var m := MonitoredTxs(txs, r.contract);
            && |out.added| <= |m|
            && (forall i :: 0 <= i < |out.added| ==> Translate(r, m[i]) == Success(out.added[i]))
            && (out.status.Completed? <==> |out.added| == |m|)
            && (!out.status.Completed? ==> StoppedAt(r, out.pool, m[|out.added|], out.status))
            && AddAll(r.addEvent, pool, out.added) == Success(out.pool)
    decreases |txs|
  {
    if |txs| != 0 {
      var tx := txs[0];
      var m := MonitoredTxs(txs, r.contract);
      if !IsMonitored(tx, r.contract) {
        HandleTxsFollowsFilter(r, pool, txs[1..]);
      } else if Translate(r, tx).Success? && r.addEvent(pool, Translate(r, tx).value).Success? {
        var event := Translate(r, tx).value;
        var pool' := r.addEvent(pool, event).value;
        HandleTxsFollowsFilter(r, pool', txs[1..]);
        var rest := HandleTxs(r, pool', txs[1..]);
        var out := HandleTxs(r, pool, txs);
        assert out.added == [event] + rest.added;
        assert m == [tx] + MonitoredTxs(txs[1..], r.contract);
        assert out.added[1..] == rest.added;
      }
    }
  }

  /** Every event handleBlock adds comes from the external chain, is tagged
      "ETH", and expects a counterpart transaction on Kardia. */
  lemma AddedEventsAreWellFormed<P>(r: Relay<P>, pool: P, block: Option<Block>)
    ensures forall ev :: ev in HandleBlock(r, pool, block).added ==>
              && ev.externalChain && ev.txSource == EthSourceTag
              && ev.pendingTx.Some? && ev.pendingTx.value.target == KardiaTargetTag
  {
    if block.Some? {
      var out := HandleTxs(r, pool, block.value.txs);
      var m := MonitoredTxs(block.value.txs, r.contract);
      HandleTxsFollowsFilter(r, pool, block.value.txs);
      forall ev | ev in out.added
        ensures ev.externalChain && ev.txSource == EthSourceTag
                && ev.pendingTx.Some? && ev.pendingTx.value.target == KardiaTargetTag
      {
        var i :| 0 <= i < |out.added| && out.added[i] == ev;
        assert Translate(r, m[i]) == Success(ev);
      }
    }
  }

  /** A block [A, B, C] where A and C go to the contract and B does not:
      when both translate and the pool takes both events, the events for A and then C are added
      and B is never looked at. */
  lemma ScanKeepsBlockOrder<P>(r: Relay<P>, pool: P, a: EthTx, b: EthTx, c: EthTx)
    requires IsMonitored(a, r.contract) && !IsMonitored(b, r.contract) && IsMonitored(c, r.contract)
    requires Translate(r, a).Success? && Translate(r, c).Success?
    requires r.addEvent(pool, Translate(r, a).value).Success?
    requires r.addEvent(r.addEvent(pool, Translate(r, a).value).value, Translate(r, c).value).Success?
    ensures HandleBlock(r, pool, Some(Block([a, b, c]))).added == [Translate(r, a).value, Translate(r, c).value]
    ensures HandleBlock(r, pool, Some(Block([a, b, c]))).status == Completed
  {
    var ea := Translate(r, a).value;
    var ec := Translate(r, c).value;
    var p1 := r.addEvent(pool, ea).value;
    var p2 := r.addEvent(p1, ec).value;
    assert [c][1..] == [];
    assert HandleTxs(r, p1, [c]) == BlockOutcome(p2, [ec], Completed);
    assert [b, c][1..] == [c];
    assert HandleTxs(r, p1, [b, c]) == HandleTxs(r, p1, [c]);
    assert [a, b, c][1..] == [b, c];
    assert HandleTxs(r, pool, [a, b, c]) == BlockOutcome(p2, [ea] + [ec], Completed);
  }

  // ---------------------------------------------------------------------------
  // Head listener and handler loop (syncHead)

  /** The capacity of `blockCh`. */
  const BlockChCapacity: nat := 1

  /** The blocks waiting in `blockCh` (each may be nil), whether the listener
      goroutine is still running, and the blocks handed to handleBlock
      goroutines so far, in the order they were received. */
  datatype SyncState = SyncState(blockCh: seq<Option<Block>>, listening: bool, dispatched: seq<Option<Block>>)

  /** What can happen next: a chain-head event reaches the listener, the
      subscription reports an error, the handler loop receives from blockCh,
      or the development generator sends a block. */
  datatype SyncEvent =
    | HeadEvent(block: Option<Block>)
    | SubscriptionError
    | Receive
    | GeneratorSend(block: Option<Block>)

  /** The listener's non-blocking send: into the slot if it is free, dropped
      otherwise. */
  function Forward(ch: seq<Option<Block>>, b: Option<Block>): (r: seq<Option<Block>>)
    ensures |ch| < BlockChCapacity ==> r == ch + [b]
    ensures |ch| >= BlockChCapacity ==> r == ch
  {
    if |ch| < BlockChCapacity then ch + [b] else ch
  }

  /** The state after an event, or None when the goroutine involved would
      block: a receive from an empty channel or the generator's send into a
      full one. The listener's forwarding never blocks. */
  function Step(lightNode: bool, s: SyncState, e: SyncEvent): (r: Option<SyncState>)
    ensures e.HeadEvent? || e.SubscriptionError? ==> r.Some?
    ensures e.HeadEvent? && s.listening ==> r == Some(s.(blockCh := Forward(s.blockCh, e.block)))
    ensures e.HeadEvent? && !s.listening ==> r == Some(s)
    ensures e.SubscriptionError? ==> r == Some(s.(listening := false))
    ensures e.Receive? ==> (r.Some? <==> |s.blockCh| > 0)
    ensures e.Receive? && r.Some? ==>
              && r.value.blockCh == s.blockCh[1..]
              && r.value.dispatched == (if lightNode then s.dispatched else s.dispatched + [s.blockCh[0]])
              && r.value.listening == s.listening
    ensures e.GeneratorSend? ==> (r.Some? <==> |s.blockCh| < BlockChCapacity)
    ensures e.GeneratorSend? && r.Some? ==> r.value == s.(blockCh := s.blockCh + [e.block])
  {
    match e
    case HeadEvent(b) => Some(if s.listening then s.(blockCh := Forward(s.blockCh, b)) else s)
    case SubscriptionError => Some(s.(listening := false))
    case Receive =>
      if |s.blockCh| == 0 then None
      else
        var b := s.blockCh[0];
        Some(s.(blockCh := s.blockCh[1..], dispatched := if lightNode then s.dispatched else s.dispatched + [b]))
    case GeneratorSend(b) =>
      if |s.blockCh| < BlockChCapacity then Some(s.(blockCh := s.blockCh + [b])) else None
  }

  /** The state when syncHead starts: an empty channel and a running listener. */
  const InitialSync := SyncState([], true, [])

  /** Runs the events that can happen, in order; an event that would block
      is left out. */
  function Run(lightNode: bool, s: SyncState, events: seq<SyncEvent>): SyncState
    decreases |events|
  {
    if |events| == 0 then s
    else
      var next := Step(lightNode, s, events[0]);
      Run(lightNode, if next.Some? then next.value else s, events[1..])
  }

  /** blockCh never holds more than one block. */
  lemma {:induction false} RunKeepsOneSlot(lightNode: bool, s: SyncState, events: seq<SyncEvent>)
    requires |s.blockCh| <= BlockChCapacity
    ensures |Run(lightNode, s, events).blockCh| <= BlockChCapacity
    decreases |events|
  {
    if |events| != 0 {
      var next := Step(lightNode, s, events[0]);
      RunKeepsOneSlot(lightNode, if next.Some? then next.value else s, events[1..]);
    }
  }

  /** A light node receives blocks but never hands one to handleBlock. */
  lemma {:induction false} LightNodeNeverDispatches(s: SyncState, events: seq<SyncEvent>)
    ensures Run(true, s, events).dispatched == s.dispatched
    decreases |events|
  {
    if |events| != 0 {
      var next := Step(true, s, events[0]);
      LightNodeNeverDispatches(if next.Some? then next.value else s, events[1..]);
    }
  }

  /** Once the subscription has failed the listener is gone for good, and
      head events no longer reach blockCh. */
  lemma {:induction false} ListenerStopIsFinal(lightNode: bool, s: SyncState, events: seq<SyncEvent>)
    requires !s.listening
    ensures !Run(lightNode, s, events).listening
    ensures (forall i :: 0 <= i < |events| ==> events[i].HeadEvent?) ==> Run(lightNode, s, events) == s
    decreases |events|
  {
    if |events| != 0 {
      var next := Step(lightNode, s, events[0]);
      ListenerStopIsFinal(lightNode, if next.Some? then next.value else s, events[1..]);
      if forall i :: 0 <= i < |events| ==> events[i].HeadEvent? {
        assert events[0].HeadEvent?;
        assert forall i :: 0 <= i < |events[1..]| ==> events[1..][i] == events[i + 1];
      }
    }
  }

  /** Two heads arriving before the handler drains the channel: the first is
      kept, the second is dropped, and nothing blocks. */
  lemma SecondHeadIsDropped(lightNode: bool, b1: Option<Block>, b2: Option<Block>)
    ensures Run(lightNode, InitialSync, [HeadEvent(b1), HeadEvent(b2)]).blockCh == [b1]
  {
    var s1 := InitialSync.(blockCh := [b1]);
    assert Forward([], b1) == [b1];
    assert Step(lightNode, InitialSync, HeadEvent(b1)) == Some(s1);
    assert Forward([b1], b2) == [b1];
    assert Step(lightNode, s1, HeadEvent(b2)) == Some(s1);
    assert [HeadEvent(b1), HeadEvent(b2)][1..] == [HeadEvent(b2)];
    assert [HeadEvent(b2)][1..] == [];
    assert Run(lightNode, s1, [HeadEvent(b2)]) == s1;
  }

  // ---------------------------------------------------------------------------
  // Release transactions (CreateEthTxFromDualEvent, SubmitTx)

  /** `types.EventData`, reduced to the summary the release uses. */
  datatype EventData = EventData(data: EventSummary)

  /** `CreateEthReleaseTx(value, nonce)`: the signed release transaction
      the contract binding builds for a value and a nonce, or nil. */
  type ReleaseBuilder = (nat, nat) -> Option<EthTx>

  /** The created transaction (nil when the Ethereum state could not be read
      or the builder returned nil) and whether the zero-nonce
      misconfiguration was reported. */
  datatype CreateOutcome = CreateOutcome(tx: Option<EthTx>, zeroNonceReported: bool)

  /** `CreateEthTxFromDualEvent` given the outcome of reading the Ethereum
      state and the release signer's address. The builder is asked for a
      release of the event's value at the signer's nonce; a zero nonce is
      reported but the builder is still asked, with nonce 0. */
  function CreateEthTxFromDualEvent(ethState: Option<StateRoot>, nonceAt: (StateRoot, Address) -> nat,
                                    signer: Address, build: ReleaseBuilder, event: EventData): (r: CreateOutcome)
    ensures ethState.None? ==> r == CreateOutcome(None, false)
    ensures ethState.Some? ==> r.tx == build(event.data.txValue, nonceAt(ethState.value, signer))
    ensures r.tx.None? <==> ethState.None? || build(event.data.txValue, nonceAt(ethState.value, signer)).None?
    ensures r.zeroNonceReported <==> ethState.Some? && nonceAt(ethState.value, signer) == 0
    ensures r.zeroNonceReported ==> r.tx == build(event.data.txValue, 0)
  {
    match ethState
    case None => CreateOutcome(None, false)
    case Some(st) =>
      var nonce := nonceAt(st, signer);
      CreateOutcome(build(event.data.txValue, nonce), nonce == 0)
  }

  datatype SubmitError = ErrCreateTx | ErrAddEthTx

  /** `SubmitTx`: a nil transaction gives ErrCreateTx, a refusal by the
      Ethereum transaction pool gives ErrAddEthTx, otherwise no error. */
  function SubmitTx(ethState: Option<StateRoot>, nonceAt: (StateRoot, Address) -> nat, signer: Address,
                    build: ReleaseBuilder, poolAccepts: EthTx -> bool, event: EventData): (r: Option<SubmitError>)
    ensures r == Some(ErrCreateTx) <==>
              ethState.None? || build(event.data.txValue, nonceAt(ethState.value, signer)).None?
    ensures r == Some(ErrAddEthTx) <==>
              && ethState.Some? && build(event.data.txValue, nonceAt(ethState.value, signer)).Some?
              && !poolAccepts(build(event.data.txValue, nonceAt(ethState.value, signer)).value)
    ensures r == None <==>
              && ethState.Some? && build(event.data.txValue, nonceAt(ethState.value, signer)).Some?
              && poolAccepts(build(event.data.txValue, nonceAt(ethState.value, signer)).value)
  {
    var created := CreateEthTxFromDualEvent(ethState, nonceAt, signer, build, event);
    match created.tx
    case None => Some(ErrCreateTx)
    case Some(tx) => if poolAccepts(tx) then None else Some(ErrAddEthTx)
  }

  /** The release for an event handleBlock built from a locked transaction
      asks the builder for exactly the locked value: what leaves the contract
      on Ethereum is what came into it. */
  lemma ReleaseMatchesLockedValue<P>(r: Relay<P>, locked: EthTx, ethState: StateRoot,
                                     nonceAt: (StateRoot, Address) -> nat, signer: Address, build: ReleaseBuilder)
    requires Translate(r, locked).Success?
    ensures CreateEthTxFromDualEvent(Some(ethState), nonceAt, signer, build, EventData(Translate(r, locked).value.summary)).tx
         == build(locked.value, nonceAt(ethState, signer))
  {
  }

  /** A zero signer nonce is reported but does not stop the release: when
      the builder and the pool both accept, SubmitTx succeeds. */
  lemma ZeroNonceStillSubmits(ethState: StateRoot, nonceAt: (StateRoot, Address) -> nat, signer: Address,
                              build: ReleaseBuilder, poolAccepts: EthTx -> bool, event: EventData)
    requires nonceAt(ethState, signer) == 0
    requires build(event.data.txValue, 0).Some? && poolAccepts(build(event.data.txValue, 0).value)
    ensures CreateEthTxFromDualEvent(Some(ethState), nonceAt, signer, build, event).zeroNonceReported
    ensures SubmitTx(Some(ethState), nonceAt, signer, build, poolAccepts, event) == None
  {
  }

  // ---------------------------------------------------------------------------
  // Development block generator (mockBlockGenerationRoutine)

  /** The generator's schedule: intervals in milliseconds, and whether to
      start over after each pass. */
  datatype TriggeringConfig = TriggeringConfig(timeIntervals: seq<nat>, repeatInfinitely: bool)

  /** One iteration of the generator: sleep, then send the generated block. */
  datatype GeneratorAction = GeneratorAction(sleepMs: nat, block: Option<Block>)

  /** `GenerateEthBlock(contractAddr)`, with the number of earlier calls as
      its second argument since the generator may hand out different blocks. */
  type BlockFactory = (Address, nat) -> Option<Block>

  /** One pass as written: `for timeout := range TimeIntervals` over a slice
      binds the index, so the i-th iteration sleeps i milliseconds. */
  function PassAsWritten(cfg: TriggeringConfig, gen: BlockFactory, contract: Address, calls: nat): (p: seq<GeneratorAction>)
    ensures |p| == |cfg.timeIntervals|
    ensures forall i :: 0 <= i < |p| ==> p[i].sleepMs == i && p[i].block == gen(contract, calls + i)
  {
    seq(|cfg.timeIntervals|, i requires 0 <= i => GeneratorAction(i, gen(contract, calls + i)))
  }

  /** One pass as intended: the i-th iteration sleeps the i-th interval. */
  function Pass(cfg: TriggeringConfig, gen: BlockFactory, contract: Address, calls: nat): (p: seq<GeneratorAction>)
    ensures |p| == |cfg.timeIntervals|
    ensures forall i :: 0 <= i < |p| ==> p[i].sleepMs == cfg.timeIntervals[i] && p[i].block == gen(contract, calls + i)
  {
    seq(|cfg.timeIntervals|, i requires 0 <= i < |cfg.timeIntervals| =>
          GeneratorAction(cfg.timeIntervals[i], gen(contract, calls + i)))
  }

  /** Which reading of the inner loop a pass follows: the code as written,
      where the loop variable is the index, or the evident intent, where it
      is the interval. */
  datatype Reading = AsWritten | AsIntended

  /** The sleep of the i-th iteration of a pass under a reading. */
  function PassSleep(reading: Reading, cfg: TriggeringConfig, i: nat): nat
    requires i < |cfg.timeIntervals|
  {
    if reading.AsWritten? then i else cfg.timeIntervals[i]
  }

  /** One pass under a reading. */
  function PassFor(reading: Reading, cfg: TriggeringConfig, gen: BlockFactory, contract: Address, calls: nat)
    : (p: seq<GeneratorAction>)
    ensures |p| == |cfg.timeIntervals|
    ensures forall i :: 0 <= i < |p| ==>
              p[i].sleepMs == PassSleep(reading, cfg, i) && p[i].block == gen(contract, calls + i)
  {
    if reading.AsWritten? then PassAsWritten(cfg, gen, contract, calls) else Pass(cfg, gen, contract, calls)
  }

  /** The generator's actions over at most `passes` passes of its outer loop
      (the loop never ends when repeating), with `calls` blocks generated before. */
  function Generate(reading: Reading, cfg: TriggeringConfig, gen: BlockFactory, contract: Address, passes: nat, calls: nat)
    : seq<GeneratorAction>
    decreases passes
  {
    if passes == 0 then []
    else
      var p := PassFor(reading, cfg, gen, contract, calls);
      if !cfg.repeatInfinitely then p
      else p + Generate(reading, cfg, gen, contract, passes - 1, calls + |cfg.timeIntervals|)
  }

  /** One block per interval per pass, and a single pass unless repeating. */
  lemma {:induction false} GenerateLength(reading: Reading, cfg: TriggeringConfig, gen: BlockFactory, contract: Address,
                                          passes: nat, calls: nat)
    ensures |Generate(reading, cfg, gen, contract, passes, calls)|
         == |cfg.timeIntervals| * (if cfg.repeatInfinitely || passes == 0 then passes else 1)
    decreases passes
  {
    if passes != 0 && cfg.repeatInfinitely {
      GenerateLength(reading, cfg, gen, contract, passes - 1, calls + |cfg.timeIntervals|);
      assert |cfg.timeIntervals| * passes == |cfg.timeIntervals| + |cfg.timeIntervals| * (passes - 1);
    }
  }

  /** The first pass sleeps as its reading says: the index as written, the
      configured interval as intended. */
  lemma GenerateFirstPass(reading: Reading, cfg: TriggeringConfig, gen: BlockFactory, contract: Address,
                          passes: nat, calls: nat)
    ensures forall k :: 0 <= k < |Generate(reading, cfg, gen, contract, passes, calls)| && k < |cfg.timeIntervals| ==>
              Generate(reading, cfg, gen, contract, passes, calls)[k].sleepMs == PassSleep(reading, cfg, k)
  {
    if passes != 0 {
      var p := PassFor(reading, cfg, gen, contract, calls);
      var g := Generate(reading, cfg, gen, contract, passes, calls);
      assert forall k :: 0 <= k < |p| ==> g[k] == p[k];
    }
  }

  /** Every action from position n on sleeps as long as the action n
      positions earlier. */
  predicate SleepsRepeatEvery(g: seq<GeneratorAction>, n: nat)
  {
    forall k :: n <= k < |g| ==> g[k].sleepMs == g[k - n].sleepMs
  }

  /** A pass of n actions in front of a schedule that repeats every n
      actions and starts like the pass gives a schedule repeating every n. */
  lemma PrependPass(p: seq<GeneratorAction>, rest: seq<GeneratorAction>)
    requires SleepsRepeatEvery(rest, |p|)
    requires forall k :: 0 <= k < |p| && k < |rest| ==> rest[k].sleepMs == p[k].sleepMs
    ensures SleepsRepeatEvery(p + rest, |p|)
  {
    var n, g := |p|, p + rest;
    forall k | n <= k < |g|
      ensures g[k].sleepMs == g[k - n].sleepMs
    {
      assert g[k] == rest[k - n];
      if k - n < n {
        assert g[k - n] == p[k - n];
      } else {
        assert g[k - n] == rest[k - n - n];
      }
    }
  }

  /** Each action after the first pass sleeps as long as the action one
      pass earlier. */
  lemma {:induction false} GenerateSchedule(reading: Reading, cfg: TriggeringConfig, gen: BlockFactory, contract: Address,
                                            passes: nat, calls: nat)
    ensures SleepsRepeatEvery(Generate(reading, cfg, gen, contract, passes, calls), |cfg.timeIntervals|)
    decreases passes
  {
    var n := |cfg.timeIntervals|;
    if passes != 0 && cfg.repeatInfinitely {
      GenerateSchedule(reading, cfg, gen, contract, passes - 1, calls + n);
      GenerateFirstPass(reading, cfg, gen, contract, passes - 1, calls + n);
      var p := PassFor(reading, cfg, gen, contract, calls);
      var rest := Generate(reading, cfg, gen, contract, passes - 1, calls + n);
      assert Generate(reading, cfg, gen, contract, passes, calls) == p + rest;
      forall k | 0 <= k < |p| && k < |rest|
        ensures rest[k].sleepMs == p[k].sleepMs
      {
        assert rest[k].sleepMs == PassSleep(reading, cfg, k);
      }
      PrependPass(p, rest);
    }
  }

  /** The k-th action sends the k-th block the factory generates. */
  lemma {:induction false} GenerateBlocks(reading: Reading, cfg: TriggeringConfig, gen: BlockFactory, contract: Address,
                                          passes: nat, calls: nat)
    ensures forall k :: 0 <= k < |Generate(reading, cfg, gen, contract, passes, calls)| ==>
              Generate(reading, cfg, gen, contract, passes, calls)[k].block == gen(contract, calls + k)
    decreases passes
  {
    var n := |cfg.timeIntervals|;
    if passes != 0 && cfg.repeatInfinitely {
      GenerateBlocks(reading, cfg, gen, contract, passes - 1, calls + n);
      var p := PassFor(reading, cfg, gen, contract, calls);
      var rest := Generate(reading, cfg, gen, contract, passes - 1, calls + n);
      var g := p + rest;
      assert Generate(reading, cfg, gen, contract, passes, calls) == g;
      forall k | 0 <= k < |g|
        ensures g[k].block == gen(contract, calls + k)
      {
        if k >= n {
          assert g[k] == rest[k - n];
          assert rest[k - n].block == gen(contract, (calls + n) + (k - n));
          assert (calls + n) + (k - n) == calls + k;
        } else {
          assert g[k] == p[k];
        }
      }
    }
  }

  /** `mockBlockGenerationRoutine` as written, observed for `passes` passes:
      one pass unless repeating, the first pass sleeping 0, 1, 2, ... ms
      whatever the intervals, each later pass repeating the first, and the
      k-th action sending the k-th generated block. */
  function MockBlockGeneration(cfg: TriggeringConfig, gen: BlockFactory, contract: Address, passes: nat)
    : (g: seq<GeneratorAction>)
    ensures |g| == |cfg.timeIntervals| * (if cfg.repeatInfinitely || passes == 0 then passes else 1)
    ensures forall k :: 0 <= k < |g| && k < |cfg.timeIntervals| ==> g[k].sleepMs == k
    ensures SleepsRepeatEvery(g, |cfg.timeIntervals|)
    ensures forall k :: 0 <= k < |g| ==> g[k].block == gen(contract, k)
  {
    GenerateLength(AsWritten, cfg, gen, contract, passes, 0);
    GenerateFirstPass(AsWritten, cfg, gen, contract, passes, 0);
    GenerateSchedule(AsWritten, cfg, gen, contract, passes, 0);
    GenerateBlocks(AsWritten, cfg, gen, contract, passes, 0);
    Generate(AsWritten, cfg, gen, contract, passes, 0)
  }

  /** The routine as evidently intended: the same loop structure, with the
      first pass sleeping the configured intervals in order. */
  function MockBlockGenerationIntended(cfg: TriggeringConfig, gen: BlockFactory, contract: Address, passes: nat)
    : (g: seq<GeneratorAction>)
    ensures |g| == |cfg.timeIntervals| * (if cfg.repeatInfinitely || passes == 0 then passes else 1)
    ensures forall k :: 0 <= k < |g| && k < |cfg.timeIntervals| ==> g[k].sleepMs == cfg.timeIntervals[k]
    ensures SleepsRepeatEvery(g, |cfg.timeIntervals|)
    ensures forall k :: 0 <= k < |g| ==> g[k].block == gen(contract, k)
  {
    GenerateLength(AsIntended, cfg, gen, contract, passes, 0);
    GenerateFirstPass(AsIntended, cfg, gen, contract, passes, 0);
    GenerateSchedule(AsIntended, cfg, gen, contract, passes, 0);
    GenerateBlocks(AsIntended, cfg, gen, contract, passes, 0);
    Generate(AsIntended, cfg, gen, contract, passes, 0)
  }

  /** With the intervals [10, 20] the routine as written sleeps 0 ms and then
      1 ms, where the intended routine sleeps 10 ms and then 20 ms. */
  lemma MockGenerationIgnoresIntervals(gen: BlockFactory, contract: Address)
    ensures var cfg := TriggeringConfig([10, 20], false);
            var asWritten := MockBlockGeneration(cfg, gen, contract, 1);
            var intended := MockBlockGenerationIntended(cfg, gen, contract, 1);
            && [asWritten[0].sleepMs, asWritten[1].sleepMs] == [0, 1]
            && [intended[0].sleepMs, intended[1].sleepMs] == [10, 20]
  {
  }

  // ---------------------------------------------------------------------------
  // Cache split (NewEthKardia)

  /** Go's `int` on a 64-bit platform. */
  const Int64Min: int := -0x8000_0000_0000_0000
  const Int64Limit: int := 0x8000_0000_0000_0000
  const TwoTo64: int := 0x1_0000_0000_0000_0000

  /** Two's-complement wrap-around of a Go `int` result. */
  function WrapInt64(x: int): (w: int)
    ensures Int64Min <= w < Int64Limit
    ensures Int64Min <= x < Int64Limit ==> w == x
    ensures x >= Int64Min ==> w <= x
  {
    (x - Int64Min) % TwoTo64 + Int64Min
  }

  /** Go's integer division, which truncates toward zero. */
  function GoDiv(a: int, b: int): (q: int)
    requires b > 0
    ensures a >= 0 ==> q == a / b
    ensures a < 0 ==> q == -((-a) / b)
  {
    if a >= 0 then a / b else -((-a) / b)
  }

  /** `DatabaseCache = CacheSize*75/100` and `TrieCache = CacheSize*25/100`
      in 64-bit Go arithmetic. For a non-negative size the two shares never
      add up to more than the size; without overflow they are the floors of
      75% and 25%, summing to the size or one less; for a negative size both
      round toward zero. */
  function CacheSplit(cacheSize: int): (r: (int, int))
    requires Int64Min <= cacheSize < Int64Limit
    ensures 0 <= cacheSize ==> r.0 + r.1 <= cacheSize
    ensures 0 <= cacheSize && cacheSize * 75 < Int64Limit ==>
              r.0 == cacheSize * 75 / 100 && r.1 == cacheSize * 25 / 100 && cacheSize - 1 <= r.0 + r.1
    ensures cacheSize < 0 && cacheSize * 75 >= Int64Min ==> cacheSize <= r.0 + r.1 <= 0
  {
    var db := GoDiv(WrapInt64(cacheSize * 75), 100);
    var trie := GoDiv(WrapInt64(cacheSize * 25), 100);
    (db, trie)
  }

  /** The default cache size of 1024 MB gives 768 MB of database cache and
      256 MB of trie cache. */
  lemma DefaultCacheSplit()
    ensures CacheSplit(1024) == (768, 256)
  {
  }
}

=== FILE: pow_key.dfy ===
/** Peer identity and proof-of-work target of the p2p layer (lib/p2p/key.go).

    A node's ID is the lower-case hexadecimal spelling of its public key
    bytes; the proof-of-work target is a big-endian byte string whose value
    is 2^(targetBits - difficulty) - 1, so a hash read as a number of
    targetBits bits meets it exactly when its first `difficulty` bits are 0. */
module PowKey {
  import opened Common

  // ---------------------------------------------------------------------------
  // Big-endian reading of byte strings

  /** The natural number a byte string spells, most significant byte first. */
  function BigEndian(s: seq<Byte>): nat
  {
    if |s| == 0 then 0 else s[0] * Pow2(8 * (|s| - 1)) + BigEndian(s[1..])
  }

  /** `bytes.Repeat([]byte{b}, n)`. */
  function Repeat(b: Byte, n: nat): (s: seq<Byte>)
    ensures |s| == n
    ensures forall i :: 0 <= i < n ==> s[i] == b
  {
    seq(n, _ => b)
  }

  /** The distributive step of BigEndianAppend, on plain integers. */
  lemma ShiftDistributes(head: int, headScale: int, tailScale: int, rest: int)
    ensures head * (headScale * tailScale) + rest * tailScale == (head * headScale + rest) * tailScale
  {
  }

  lemma {:induction false} BigEndianAppend(a: seq<Byte>, b: seq<Byte>)
    ensures BigEndian(a + b) == BigEndian(a) * Pow2(8 * |b|) + BigEndian(b)
  {
    if |a| == 0 {
      assert a + b == b;
    } else {
      var headScale, tailScale := Pow2(8 * (|a| - 1)), Pow2(8 * |b|);
      assert (a + b)[0] == a[0];
      assert (a + b)[1..] == a[1..] + b;
      BigEndianAppend(a[1..], b);
      assert 8 * (|a + b| - 1) == 8 * (|a| - 1) + 8 * |b|;
      Pow2Add(8 * (|a| - 1), 8 * |b|);
      ShiftDistributes(a[0], headScale, tailScale, BigEndian(a[1..]));
    }
  }

  /** Leading zero bytes do not change the value. */
  lemma {:induction false} BigEndianZeros(n: nat)
    ensures BigEndian(Repeat(0, n)) == 0
  {
    if n != 0 {
      assert Repeat(0, n)[1..] == Repeat(0, n - 1);
      BigEndianZeros(n - 1);
    }
  }

  /** n bytes of 0xFF spell 2^(8n) - 1. */
  lemma {:induction false} BigEndianOnes(n: nat)
    ensures BigEndian(Repeat(255, n)) == Pow2(8 * n) - 1
  {
    if n != 0 {
      assert Repeat(255, n)[1..] == Repeat(255, n - 1);
      BigEndianOnes(n - 1);
      Pow2Add(8, 8 * (n - 1));
      assert Pow2(8) == 256;
      assert 8 * n == 8 + 8 * (n - 1);
    }
  }

  // ---------------------------------------------------------------------------
  // MakePoWTarget (key.go:99-119)

  /** The two panics of MakePoWTarget. */
  datatype PowError =
    | TargetBitsNotByteMultiple(targetBits: nat)
    | DifficultyNotBelowTargetBits(difficulty: nat, targetBits: nat)

  /** Length of the part of the target that is not 0xFF: the zero bytes plus,
      when difficulty is not a multiple of 8, the one partial byte. */
  function PrefixLen(difficulty: nat): nat
  {
    difficulty / 8 + (if difficulty % 8 > 0 then 1 else 0)
  }

  /** The byte `1<<k - 1`: its low k bits set. */
  function LowBitsMask(k: nat): (b: Byte)
    requires 1 <= k <= 7
    ensures b == Pow2(k) - 1
  {
    Pow2Le(k, 7);
    Pow2(k) - 1
  }

  /** The partial byte that follows the zero bytes, if difficulty is not a
      multiple of 8. */
  function PartialByte(difficulty: nat): (p: seq<Byte>)
    ensures |p| == PrefixLen(difficulty) - difficulty / 8
  {
    if difficulty % 8 > 0 then [LowBitsMask(8 - difficulty % 8)] else []
  }

  /** The big-endian encoding of 2^(targetBits - difficulty) - 1, or the
      panic the source raises when targetBits is not a whole number of bytes
      or difficulty is not below targetBits (checked in that order). */
  function MakePoWTarget(difficulty: nat, targetBits: nat): (r: Result<seq<Byte>, PowError>)
    ensures targetBits % 8 != 0 ==> r == Failure(TargetBitsNotByteMultiple(targetBits))
    ensures targetBits % 8 == 0 && difficulty >= targetBits ==>
              r == Failure(DifficultyNotBelowTargetBits(difficulty, targetBits))
    ensures r.Success? <==> targetBits % 8 == 0 && difficulty < targetBits
    ensures r.Success? ==> |r.value| == targetBits / 8
    ensures r.Success? ==> forall i :: 0 <= i < difficulty / 8 ==> r.value[i] == 0
    ensures r.Success? && difficulty % 8 > 0 ==>
              r.value[difficulty / 8] == Pow2(8 - difficulty % 8) - 1
    ensures r.Success? ==> forall i :: PrefixLen(difficulty) <= i < |r.value| ==> r.value[i] == 255
  {
    if targetBits % 8 != 0 then
      Failure(TargetBitsNotByteMultiple(targetBits))
    else if difficulty >= targetBits then
      Failure(DifficultyNotBelowTargetBits(difficulty, targetBits))
    else
      var prefix := Repeat(0, difficulty / 8) + PartialByte(difficulty);
      var tailLen := targetBits / 8 - |prefix|;
      Success(prefix + Repeat(255, tailLen))
  }

  /** The target is zero bytes, the partial byte, then 0xFF bytes. */
  lemma MakePoWTargetShape(difficulty: nat, targetBits: nat)
    requires targetBits % 8 == 0 && difficulty < targetBits
    ensures MakePoWTarget(difficulty, targetBits).Success?
    ensures MakePoWTarget(difficulty, targetBits).value
         == Repeat(0, difficulty / 8)
          + (PartialByte(difficulty) + Repeat(255, targetBits / 8 - PrefixLen(difficulty)))
  {
    var prefix := Repeat(0, difficulty / 8) + PartialByte(difficulty);
    var tail := Repeat(255, targetBits / 8 - PrefixLen(difficulty));
    assert (Repeat(0, difficulty / 8) + PartialByte(difficulty)) + tail
        == Repeat(0, difficulty / 8) + (PartialByte(difficulty) + tail);
  }

  /** One byte p followed by t bytes of 0xFF spells (p + 1) * 2^(8t) - 1. */
  lemma ByteThenOnesValue(p: Byte, t: nat)
    ensures BigEndian([p] + Repeat(255, t)) == (p + 1) * Pow2(8 * t) - 1
  {
    var ones := Repeat(255, t);
    var scale := Pow2(8 * t);
    BigEndianOnes(t);
    BigEndianAppend([p], ones);
    assert BigEndian([p]) == p;
    assert BigEndian([p] + ones) == p * scale + (scale - 1);
    assert p * scale + scale == (p + 1) * scale;
  }

  /** The mask of the low k bits followed by t bytes of 0xFF spells
      2^(8t + k) - 1. */
  lemma MaskThenOnesValue(k: nat, t: nat)
    requires 1 <= k <= 7
    ensures BigEndian([LowBitsMask(k)] + Repeat(255, t)) == Pow2(8 * t + k) - 1
  {
    var mask, scale, high := LowBitsMask(k), Pow2(8 * t), Pow2(k);
    ByteThenOnesValue(mask, t);
    Pow2Add(8 * t, k);
    MaskScales(mask, high, scale);
  }

  lemma MaskScales(mask: int, high: int, scale: int)
    requires mask == high - 1
    ensures (mask + 1) * scale == scale * high
  {
  }

  /** The partial byte followed by t bytes of 0xFF spells 2^(8t + 8 - m) - 1
      where m = difficulty % 8 is not 0, and 2^(8t) - 1 where it is. */
  lemma PartialTailValue(difficulty: nat, t: nat)
    ensures BigEndian(PartialByte(difficulty) + Repeat(255, t))
         == Pow2(8 * t + (if difficulty % 8 > 0 then 8 - difficulty % 8 else 0)) - 1
  {
    if difficulty % 8 == 0 {
      BigEndianOnes(t);
      assert PartialByte(difficulty) + Repeat(255, t) == Repeat(255, t);
    } else {
      MaskThenOnesValue(8 - difficulty % 8, t);
    }
  }

  /** The doc comment's promise: read big-endian, the target is
      2^(targetBits - difficulty) - 1. */
  lemma MakePoWTargetValue(difficulty: nat, targetBits: nat)
    requires targetBits % 8 == 0 && difficulty < targetBits
    ensures MakePoWTarget(difficulty, targetBits).Success?
    ensures BigEndian(MakePoWTarget(difficulty, targetBits).value) == Pow2(targetBits - difficulty) - 1
  {
    MakePoWTargetShape(difficulty, targetBits);
    var t := targetBits / 8 - PrefixLen(difficulty);
    var rest := PartialByte(difficulty) + Repeat(255, t);
    BigEndianAppend(Repeat(0, difficulty / 8), rest);
    BigEndianZeros(difficulty / 8);
    PartialTailValue(difficulty, t);
    assert targetBits - difficulty == 8 * t + (if difficulty % 8 > 0 then 8 - difficulty % 8 else 0);
  }

  /** Raising the difficulty by one bit halves the number of values at or
      below the target. */
  lemma MakePoWTargetHalves(difficulty: nat, targetBits: nat)
    requires targetBits % 8 == 0 && difficulty + 1 < targetBits
    ensures BigEndian(MakePoWTarget(difficulty, targetBits).value) + 1
         == 2 * (BigEndian(MakePoWTarget(difficulty + 1, targetBits).value) + 1)
  {
    MakePoWTargetValue(difficulty, targetBits);
    MakePoWTargetValue(difficulty + 1, targetBits);
    assert targetBits - difficulty == (targetBits - (difficulty + 1)) + 1;
  }

  /** A value x of targetBits bits meets the target exactly when x is below
      2^(targetBits - difficulty), that is, when its first `difficulty` bits
      (x divided by 2^(targetBits - difficulty)) are all 0. */
  lemma MeetsTargetIffLeadingZeros(difficulty: nat, targetBits: nat, x: nat)
    requires targetBits % 8 == 0 && difficulty < targetBits
    requires x < Pow2(targetBits)
    ensures MakePoWTarget(difficulty, targetBits).Success?
    ensures x <= BigEndian(MakePoWTarget(difficulty, targetBits).value) <==> x < Pow2(targetBits - difficulty)
    ensures x <= BigEndian(MakePoWTarget(difficulty, targetBits).value) <==> x / Pow2(targetBits - difficulty) == 0
  {
    MakePoWTargetValue(difficulty, targetBits);
    QuotientZero(x, Pow2(targetBits - difficulty));
  }

  lemma QuotientZero(x: nat, d: nat)
    requires d >= 1
    ensures x / d == 0 <==> x < d
  {
  }

  // ---------------------------------------------------------------------------
  // Hexadecimal peer IDs (key.go:28-42)

  /** The alphabet of Go's `hex.EncodeToString`. */
  const HexAlphabet: string := "0123456789abcdef"

  /** The digit of a byte's high nibble. */
  function HighDigit(x: Byte): char
  {
    HexAlphabet[x / 16]
  }

  /** The digit of a byte's low nibble. */
  function LowDigit(x: Byte): char
  {
    HexAlphabet[x % 16]
  }

  /** `hex.EncodeToString`: two lower-case digits per byte, high nibble first. */
  function HexEncode(b: seq<Byte>): (s: string)
    ensures |s| == 2 * |b|
    ensures forall i :: 0 <= i < |b| ==> s[2 * i] == HighDigit(b[i]) && s[2 * i + 1] == LowDigit(b[i])
  {
    if |b| == 0 then ""
    else
      var rest := HexEncode(b[1..]);
      var s := [HighDigit(b[0]), LowDigit(b[0])] + rest;
      forall i | 1 <= i < |b|
        ensures s[2 * i] == HighDigit(b[i]) && s[2 * i + 1] == LowDigit(b[i])
      {
        var j := i - 1;
        assert b[1..][j] == b[i];
        assert s[2 * i] == rest[2 * j] && s[2 * i + 1] == rest[2 * j + 1];
      }
      s
  }

  /** The value of one lower-case hexadecimal digit. */
  function HexDigitValue(c: char): Option<nat>
  {
    if '0' <= c <= '9' then Some(c as int - '0' as int)
    else if 'a' <= c <= 'f' then Some(c as int - 'a' as int + 10)
    else None
  }

  /** Reads back a lower-case hexadecimal string; an odd length or a
      character outside the alphabet is rejected. */
  function HexDecode(s: string): Option<seq<Byte>>
  {
    if |s| == 0 then Some([])
    else if |s| == 1 then None
    else
      match (HexDigitValue(s[0]), HexDigitValue(s[1]), HexDecode(s[2..]))
      case (Some(hi), Some(lo), Some(rest)) =>
        if hi < 16 && lo < 16 then Some([hi * 16 + lo] + rest) else None
      case _ => None
  }

  lemma HexDigitValueOfAlphabet(v: nat)
    requires v < 16
    ensures HexDigitValue(HexAlphabet[v]) == Some(v)
  {
    if v < 10 {
      assert HexAlphabet[v] as int == '0' as int + v;
    } else {
      assert HexAlphabet[v] as int == 'a' as int + (v - 10);
    }
  }

  /** A byte is its high nibble times 16 plus its low nibble. */
  lemma ByteNibbles(x: Byte)
    ensures x / 16 < 16 && x % 16 < 16
    ensures x / 16 * 16 + x % 16 == x
  {
  }

  /** Reading two digits in front of an encoded tail. */
  lemma HexDecodeCons(hi: nat, lo: nat, rest: string, tail: seq<Byte>)
    requires hi < 16 && lo < 16
    requires HexDecode(rest) == Some(tail)
    ensures HexDecode([HexAlphabet[hi], HexAlphabet[lo]] + rest) == Some([hi * 16 + lo] + tail)
  {
    var s := [HexAlphabet[hi], HexAlphabet[lo]] + rest;
    HexDigitValueOfAlphabet(hi);
    HexDigitValueOfAlphabet(lo);
    assert s[0] == HexAlphabet[hi] && s[1] == HexAlphabet[lo];
    assert s[2..] == rest;
  }

  lemma {:induction false} HexRoundTrip(b: seq<Byte>)
    ensures HexDecode(HexEncode(b)) == Some(b)
  {
    if |b| != 0 {
      var hi, lo := b[0] / 16, b[0] % 16;
      ByteNibbles(b[0]);
      HexRoundTrip(b[1..]);
      assert HexEncode(b) == [HighDigit(b[0]), LowDigit(b[0])] + HexEncode(b[1..]);
      HexDecodeCons(hi, lo, HexEncode(b[1..]), b[1..]);
      assert [hi * 16 + lo] + b[1..] == b;
    }
  }

  /** A peer ID: the hex spelling of the node's public key. */
  type ID = string

  /** A node key, reduced to the serialised public key that
      `crypto.FromECDSAPub` produces from it; the private key is not modelled. */
  datatype NodeKey = NodeKey(pubKey: seq<Byte>)

  /** The ID of a public key: its lower-case hex encoding, twice as long as
      the key and decoding back to exactly the key. */
  function PubKeyToID(pubKey: seq<Byte>): (id: ID)
    ensures |id| == 2 * |pubKey|
    ensures forall i :: 0 <= i < |id| ==> id[i] in HexAlphabet
    ensures HexDecode(id) == Some(pubKey)
  {
    HexRoundTrip(pubKey);
    var id := HexEncode(pubKey);
    forall j | 0 <= j < |id|
      ensures id[j] in HexAlphabet
    {
      var i := j / 2;
      assert j == 2 * i || j == 2 * i + 1;
      assert id[j] == HighDigit(pubKey[i]) || id[j] == LowDigit(pubKey[i]);
    }
    id
  }

  /** A node's ID is the ID of its public key. */
  function NodeID(k: NodeKey): (id: ID)
    ensures HexDecode(id) == Some(k.pubKey)
  {
    PubKeyToID(k.pubKey)
  }

  /** Different public keys never share an ID, and equal keys always do. */
  lemma PubKeyToIDInjective(a: seq<Byte>, b: seq<Byte>)
    ensures PubKeyToID(a) == PubKeyToID(b) <==> a == b
  {
    if PubKeyToID(a) == PubKeyToID(b) {
      assert Some(a) == HexDecode(PubKeyToID(a)) == HexDecode(PubKeyToID(b)) == Some(b);
    }
  }
}

=== FILE: struct_logger.dfy ===
/** The structured execution tracer of the Kardia VM (kvm/loggers.go).

    A StructLogger is a record of its configuration, the storage slots it has
    seen per contract, the list of captured steps, the call's output and its
    error. Each VM step may append one StructLog; SLOAD and SSTORE also record
    the slot they touch under the running contract. The VM state the tracer
    looks at is passed in as plain values: the stack as 256-bit words, memory
    as bytes, and the state database as a lookup function. Maps are values
    here, so a map stored in a log entry can never be changed afterwards. */
module StructLogging {
  import opened Common

  /** The slots of one contract the tracer has seen: key to value. */
  type Storage = map<Hash, Hash>

  /** `Storage.Copy`: a fresh map holding exactly the pairs of `s`. */
  method CopyStorage(s: Storage) returns (cpy: Storage)
    ensures cpy.Keys == s.Keys
    ensures forall k :: k in s ==> cpy[k] == s[k]
  {
    cpy := map[];
    var todo := s.Keys;
    while todo != {}
      invariant todo <= s.Keys
      invariant cpy.Keys == s.Keys - todo
      invariant forall k :: k in cpy ==> cpy[k] == s[k]
      decreases todo
    {
      var k :| k in todo;
      cpy := cpy[k := s[k]];
      todo := todo - {k};
    }
  }

  /** A VM opcode byte. The opcode table is not part of this model; the two
      the tracer inspects have their values from the EVM instruction set. */
  type OpCode = Byte

  const SLOAD: OpCode := 0x54
  const SSTORE: OpCode := 0x55

  /** A VM error; nil is `None`. */
  datatype VmError = VmError(message: string)

  /** `LogConfig`. A limit of 0 means unlimited. */
  datatype LogConfig = LogConfig(
    disableMemory: bool,
    disableStack: bool,
    disableStorage: bool,
    disableReturnData: bool,
    debug: bool,
    limit: int)

  /** The zero value of `LogConfig`: capture everything, no limit. */
  const DefaultConfig := LogConfig(false, false, false, false, false, 0)

  /** One captured step. A disabled capture leaves its field nil (`None`),
      which is different from an empty capture (`Some([])`). */
  datatype StructLog = StructLog(
    pc: nat,
    op: OpCode,
    gas: nat,
    gasCost: nat,
    memory: Option<seq<Byte>>,
    memorySize: nat,
    stack: Option<seq<Hash>>,
    returnStack: Option<seq<nat>>,
    returnData: Option<seq<Byte>>,
    storage: Option<Storage>,
    depth: int,
    refundCounter: nat,
    err: Option<VmError>)

  /** What the tracer sees of the running frame: memory, operand stack (top
      last), return stack, and the address of the running contract. */
  datatype Scope = Scope(
    memory: seq<Byte>,
    stack: seq<Hash>,
    returnStack: Option<seq<nat>>,
    contract: Address)

  /** What the tracer reads from the state database: slot values and the
      refund counter. */
  datatype StateView = StateView(getState: (Address, Hash) -> Hash, refund: nat)

  /** The arguments of one `CaptureState` call. */
  datatype Step = Step(
    view: StateView,
    pc: nat,
    op: OpCode,
    gas: nat,
    cost: nat,
    scope: Scope,
    returnData: seq<Byte>,
    depth: int,
    err: Option<VmError>)

  datatype StructLogger = StructLogger(
    cfg: LogConfig,
    storage: map<Address, Storage>,
    logs: seq<StructLog>,
    output: Option<seq<Byte>>,
    err: Option<VmError>)

  /** `NewStructLogger`: a nil configuration means the zero configuration. */
  function NewStructLogger(cfg: Option<LogConfig>): (l: StructLogger)
    ensures cfg.Some? ==> l.cfg == cfg.value
    ensures cfg.None? ==>
              && l.cfg.limit == 0
              && !l.cfg.disableMemory && !l.cfg.disableStack
              && !l.cfg.disableStorage && !l.cfg.disableReturnData
    ensures l.storage == map[] && l.logs == [] && l.output == None && l.err == None
  {
    StructLogger(if cfg.Some? then cfg.value else DefaultConfig, map[], [], None, None)
  }

  /** True when the logger already holds as many entries as its limit allows. */
  predicate AtLimit(cfg: LogConfig, count: nat)
  {
    cfg.limit != 0 && cfg.limit <= count
  }

  /** The slots recorded so far for `contract`, empty if none. */
  function SlotsOf(l: StructLogger, contract: Address): Storage
  {
    if contract in l.storage then l.storage[contract] else map[]
  }

  /** The word on top of a stack. */
  function Top(stack: seq<Hash>): Hash
    requires |stack| >= 1
  {
    stack[|stack| - 1]
  }

  /** The slots of the running contract after recording what an SLOAD reads
      or an SSTORE writes. */
  function RecordAccess(slots: Storage, s: Step): Storage
  {
    var stack := s.scope.stack;
    if s.op == SLOAD && |stack| >= 1 then
      slots[Top(stack) := s.view.getState(s.scope.contract, Top(stack))]
    else if s.op == SSTORE && |stack| >= 2 then
      slots[Top(stack) := stack[|stack| - 2]]
    else
      slots
  }

  /** `CaptureState`: unless the limit is reached, append one entry describing
      the step, and record SLOAD/SSTORE slots of the running contract. */
  function CaptureState(l: StructLogger, s: Step): (r: StructLogger)
    // configuration, output and error are never touched
    ensures r.cfg == l.cfg && r.output == l.output && r.err == l.err
    // at the limit nothing changes
    ensures AtLimit(l.cfg, |l.logs|) ==> r == l
    // otherwise exactly one entry is appended and earlier ones are kept
    ensures !AtLimit(l.cfg, |l.logs|) ==>
              && |r.logs| == |l.logs| + 1
              && r.logs[..|l.logs|] == l.logs
              && r.logs[|l.logs|].pc == s.pc
              && r.logs[|l.logs|].op == s.op
              && r.logs[|l.logs|].gas == s.gas
              && r.logs[|l.logs|].gasCost == s.cost
              && r.logs[|l.logs|].depth == s.depth
              && r.logs[|l.logs|].err == s.err
              && r.logs[|l.logs|].refundCounter == s.view.refund
              && r.logs[|l.logs|].memorySize == |s.scope.memory|
    // each Disable* flag leaves its field nil; the return stack is always nil
    ensures !AtLimit(l.cfg, |l.logs|) ==>
              && r.logs[|l.logs|].memory == (if l.cfg.disableMemory then None else Some(s.scope.memory))
              && r.logs[|l.logs|].stack == (if l.cfg.disableStack then None else Some(s.scope.stack))
              && r.logs[|l.logs|].returnData == (if l.cfg.disableReturnData then None else Some(s.returnData))
              && r.logs[|l.logs|].returnStack == None
    // with storage capture off, the logger's slots are not touched
    ensures l.cfg.disableStorage ==> r.storage == l.storage
    ensures l.cfg.disableStorage && !AtLimit(l.cfg, |l.logs|) ==> r.logs[|l.logs|].storage == None
    // no other contract's slots change
    ensures forall a :: a != s.scope.contract ==>
              (a in r.storage <==> a in l.storage) && (a in l.storage ==> r.storage[a] == l.storage[a])
    // with storage capture on, the running contract gets an entry, SLOAD
    // records the state value under the top word, SSTORE records the second
    // word under the top word, and the log entry holds the updated slots
    ensures !AtLimit(l.cfg, |l.logs|) && !l.cfg.disableStorage ==>
              && s.scope.contract in r.storage
              && r.logs[|l.logs|].storage == Some(r.storage[s.scope.contract])
    ensures !AtLimit(l.cfg, |l.logs|) && !l.cfg.disableStorage && s.op == SLOAD && |s.scope.stack| >= 1 ==>
              var key := Top(s.scope.stack);
              r.storage[s.scope.contract] == SlotsOf(l, s.scope.contract)[key := s.view.getState(s.scope.contract, key)]
    ensures !AtLimit(l.cfg, |l.logs|) && !l.cfg.disableStorage && s.op == SSTORE && |s.scope.stack| >= 2 ==>
              var st := s.scope.stack;
              r.storage[s.scope.contract] == SlotsOf(l, s.scope.contract)[Top(st) := st[|st| - 2]]
    ensures !AtLimit(l.cfg, |l.logs|) && !l.cfg.disableStorage
            && !(s.op == SLOAD && |s.scope.stack| >= 1) && !(s.op == SSTORE && |s.scope.stack| >= 2) ==>
              r.storage[s.scope.contract] == SlotsOf(l, s.scope.contract)
  {
    if AtLimit(l.cfg, |l.logs|) then l
    else
      var mem := if l.cfg.disableMemory then None else Some(s.scope.memory);
      var stck := if l.cfg.disableStack then None else Some(s.scope.stack);
      var storage' := if l.cfg.disableStorage then l.storage
                      else l.storage[s.scope.contract := RecordAccess(SlotsOf(l, s.scope.contract), s)];
      var snapshot := if l.cfg.disableStorage then None else Some(storage'[s.scope.contract]);
      var rdata := if l.cfg.disableReturnData then None else Some(s.returnData);
      var entry := StructLog(s.pc, s.op, s.gas, s.cost, mem, |s.scope.memory|, stck, None, rdata,
                             snapshot, s.depth, s.view.refund, s.err);
      l.(storage := storage', logs := l.logs + [entry])
  }

  /** `CaptureEnd`: remember the call's output and error. Debug printing is
      not modelled. */
  function CaptureEnd(l: StructLogger, output: Option<seq<Byte>>, err: Option<VmError>): (r: StructLogger)
    ensures Output(r) == output && Error(r) == err
    ensures StructLogs(r) == StructLogs(l) && r.storage == l.storage && r.cfg == l.cfg
  {
    l.(output := output, err := err)
  }

  /** `StructLogs`: the captured entries themselves, in capture order. */
  function StructLogs(l: StructLogger): (r: seq<StructLog>)
    ensures r == l.logs
  {
    l.logs
  }

  /** `Error`: the VM error recorded by CaptureEnd, nil before it. */
  function Error(l: StructLogger): (r: Option<VmError>)
    ensures r == l.err
  {
    l.err
  }

  /** `Output`: the return data recorded by CaptureEnd, nil before it. */
  function Output(l: StructLogger): (r: Option<seq<Byte>>)
    ensures r == l.output
  {
    l.output
  }

  /** `Reset`: empty slots and logs, empty (not nil) output, nil error; the
      configuration stays. */
  function Reset(l: StructLogger): (r: StructLogger)
    ensures StructLogs(r) == [] && r.storage == map[]
    ensures Output(r) == Some([]) && Error(r) == None
    ensures r.cfg == l.cfg
    // the same as a newly made logger, except that the output is empty rather than nil
    ensures r == NewStructLogger(Some(l.cfg)).(output := Some([]))
  {
    l.(storage := map[], logs := [], output := Some([]), err := None)
  }

  // ---------------------------------------------------------------------------
  // Traces: CaptureState applied to a sequence of steps

  function Trace(l: StructLogger, steps: seq<Step>): StructLogger
    decreases |steps|
  {
    if |steps| == 0 then l else Trace(CaptureState(l, steps[0]), steps[1..])
  }

  /** How many entries a logger holds after `k` more steps when it starts with
      `n` entries under `limit`: all of them when unlimited, none when already
      at (or, for a negative limit, past) the limit, and otherwise up to the limit. */
  function ExpectedCount(limit: int, n: nat, k: nat): nat
  {
    if limit == 0 then n + k
    else if limit <= n then n
    else if n + k <= limit then n + k
    else limit
  }

  /** The log-count limit over a whole trace: the exact number of entries. */
  lemma {:induction false} TraceLogCount(l: StructLogger, steps: seq<Step>)
    ensures |Trace(l, steps).logs| == ExpectedCount(l.cfg.limit, |l.logs|, |steps|)
    ensures Trace(l, steps).cfg == l.cfg
    decreases |steps|
  {
    if |steps| != 0 {
      TraceLogCount(CaptureState(l, steps[0]), steps[1..]);
    }
  }

  /** No step of an execution touches the recorded output and error: they
      stay what they were before it. */
  lemma {:induction false} TraceKeepsErrAndOutput(l: StructLogger, steps: seq<Step>)
    ensures Error(Trace(l, steps)) == Error(l) && Output(Trace(l, steps)) == Output(l)
    decreases |steps|
  {
    if |steps| != 0 {
      TraceKeepsErrAndOutput(CaptureState(l, steps[0]), steps[1..]);
    }
  }

  /** What a caller reads back from a new logger: during the execution
      Output and Error are nil; after it StructLogs has the entry count the
      limit allows, and Output and Error give what CaptureEnd recorded. */
  lemma EndOfRunReadback(cfg: Option<LogConfig>, steps: seq<Step>, output: Option<seq<Byte>>, err: Option<VmError>)
    ensures Error(Trace(NewStructLogger(cfg), steps)) == None
    ensures Output(Trace(NewStructLogger(cfg), steps)) == None
    ensures var done := CaptureEnd(Trace(NewStructLogger(cfg), steps), output, err);
            && |StructLogs(done)| == ExpectedCount(NewStructLogger(cfg).cfg.limit, 0, |steps|)
            && Output(done) == output && Error(done) == err
  {
    TraceLogCount(NewStructLogger(cfg), steps);
    TraceKeepsErrAndOutput(NewStructLogger(cfg), steps);
  }

  /** With a positive limit that is not yet exceeded, it is never exceeded. */
  lemma TraceRespectsLimit(l: StructLogger, steps: seq<Step>)
    requires l.cfg.limit > 0 && |l.logs| <= l.cfg.limit
    ensures |Trace(l, steps).logs| <= l.cfg.limit
  {
    TraceLogCount(l, steps);
  }

  /** Entries once captured are never changed or removed by later steps. */
  lemma {:induction false} TraceKeepsEarlierEntries(l: StructLogger, steps: seq<Step>)
    ensures |l.logs| <= |Trace(l, steps).logs|
    ensures Trace(l, steps).logs[..|l.logs|] == l.logs
    decreases |steps|
  {
    if |steps| != 0 {
      var l' := CaptureState(l, steps[0]);
      TraceKeepsEarlierEntries(l', steps[1..]);
      assert Trace(l, steps).logs[..|l.logs|] == Trace(l', steps[1..]).logs[..|l'.logs|][..|l.logs|];
    }
  }

  /** With storage capture off, no trace modifies the recorded slots. */
  lemma {:induction false} TraceWithoutStorageKeepsSlots(l: StructLogger, steps: seq<Step>)
    requires l.cfg.disableStorage
    ensures Trace(l, steps).storage == l.storage
    decreases |steps|
  {
    if |steps| != 0 {
      TraceWithoutStorageKeepsSlots(CaptureState(l, steps[0]), steps[1..]);
    }
  }

  /** A logger made with a nil configuration records every step in full:
      one entry per step, in order, with memory, stack, storage and return
      data all captured. */
  lemma {:induction false} DefaultLoggerRecordsEverything(l: StructLogger, steps: seq<Step>)
    requires l.cfg == DefaultConfig
    ensures |Trace(l, steps).logs| == |l.logs| + |steps|
    ensures forall i :: 0 <= i < |steps| ==>
              var e := Trace(l, steps).logs[|l.logs| + i];
              && e.pc == steps[i].pc && e.op == steps[i].op
              && e.memory.Some? && e.stack.Some? && e.storage.Some? && e.returnData.Some?
    decreases |steps|
  {
    if |steps| != 0 {
      var l' := CaptureState(l, steps[0]);
      DefaultLoggerRecordsEverything(l', steps[1..]);
      TraceKeepsEarlierEntries(l', steps[1..]);
      var t := Trace(l, steps);
      assert t == Trace(l', steps[1..]);
      assert t.logs[|l.logs|] == t.logs[..|l'.logs|][|l.logs|] == l'.logs[|l.logs|];
      forall i | 0 <= i < |steps|
        ensures var e := t.logs[|l.logs| + i];
                && e.pc == steps[i].pc && e.op == steps[i].op
                && e.memory.Some? && e.stack.Some? && e.storage.Some? && e.returnData.Some?
      {
        if i != 0 {
          assert steps[i] == steps[1..][i - 1];
          assert |l.logs| + i == |l'.logs| + (i - 1);
        }
      }
    }
  }
}
